=== FILE: README.md ===
# Catalog view of the motorcycle-champions browser, in Dafny

This project models the catalog view of the champions browser (`App` in `script.js`).
The view holds a year-sorted list of champion cards. It narrows the list by category,
nationality and a free-text search. It shows the result either as a grid or one card
at a time in a detailed view. In the detailed view a cursor moves through the cards
with the previous/next buttons and with the mouse wheel. An `isScrolling` guard keeps
rapid wheel events from advancing the cursor more than once.

The app is an immutable record `View.App` with these fields: `allData`, `lang`,
`allCards`, `filtered`, `layout`, `index`, `isScrolling`, `category`, `nationality`
and `searchTerm`. Each event handler is a pure transition in `View.Step`:

- `SearchInput`, `CategoryClick` and `NationalityChange` set one filter field and call `FilterAndRender`.
- `LayoutClick` calls `SwitchLayout`.
- `Wheel` calls `OnWheel`.
- `GuardTimeout` releases the guard.
- `PrevClick` and `NextClick` call `Navigate`.
- `LanguageChange` calls `OnLanguageChange` for pt, es and en, and is ignored for any other code.

`View.Run` applies a sequence of events. `View.Valid` is the invariant that every
reachable state keeps:

- the entries are newest first;
- the current language is pt, es or en;
- the cards are built from the entries in the current language;
- `filtered` is exactly the filter of the cards by the current fields;
- the cursor lies inside `filtered`, or is 0 when `filtered` is empty;
- the search term is lower case.

Modules:

- `Wrappers`: `Option`, used for JavaScript's `undefined`/`null`.
- `Text`: ASCII lower-casing, `includes`, the decimal form of a year, and the default string order of `sort()`.
- `Catalog`: raw entries, the `Card` constructor's language choice, and `getInitialLang`.
- `Filter`: the three-step narrowing of `filterAndRender`, plus its one-filter reference definition.
- `Nationalities`: the option list of the nationality filter.
- `Keyboard`: arrow-key focus among the category buttons.
- `View`: the app state, the events and the transitions.

## Notes on the source's behaviour

- The search term is lower-cased but not trimmed (script.js:326).
- The nav-button flags are `index == 0` and `index == |filtered| - 1`. They are only refreshed when a card is rendered, so nothing sets them to "both disabled" for an empty list.
- `navigateDetailedView` accepts any integer direction and has no error path. `View.Navigate` takes any `int` too.
- The selected nationality can become `undefined` after a language change (script.js:529-530). The filter value is therefore an `Option<string>`, and `undefined` then selects the cards that have no nationality.

## Model

| member | source | states |
|---|---|---|
| Text.Lower | script.js:476 | `toLowerCase`: same length, no upper-case ASCII letter remains, letters A-Z move to a-z and every other character is kept |
| Text.ContainsIffOccurs | script.js:476-477 | `includes` holds exactly when the needle occurs at some position of the haystack |
| Text.Digits | script.js:477 | the digits of a year are decimal digits, at least one, with no leading zero unless the number is 0 |
| Text.DecimalRoundTrip | script.js:477 | `year.toString()` is a well-formed decimal string that reads back as the same year |
| Text.LexLessStrictOrder | script.js:311 | the default string order of `sort()` is irreflexive, transitive and total on distinct strings |
| Catalog.MakeCard | script.js:3-30 | a card keeps the raw entry it was built from |
| Catalog.CardLanguageMatchesBlock | script.js:16-23 | a card reads the block stored under its language exactly when the language is pt, es or en; any other code falls back to English while `data[lang]` is undefined |
| Catalog.PrimarySubtag | script.js:195 | `split("-")[0]` is the prefix before the first hyphen, or the whole tag when it has none |
| Catalog.InitialLang | script.js:191-199 | a non-empty saved language wins; otherwise a browser primary subtag of en gives en, es gives es, and any other subtag gives pt |
| Catalog.MakeCardsKeepsOrder | script.js:256-269 | cards built from newest-first entries stay newest first, each card at its entry's position |
| Filter.Retain | script.js:460-478 | `Array.filter` keeps exactly the elements that pass, never more than its input |
| Filter.ApplyIsSingleFilter | script.js:455-481 | narrowing by category, then nationality, then search term equals one filter by the conjunction of the three active tests |
| Filter.ApplyMembership | script.js:455-481 | a card is shown exactly when it is in the catalog and passes every active test |
| Filter.ApplySelectsMatchingPositions | script.js:455-481 | the result is the cards at exactly the matching positions, in increasing position order: kept cards pass every test, dropped cards fail at least one |
| Filter.ApplyAtSamePositions | script.js:455-481 | two equally long lists whose cards pass their filters at the same positions keep equally many cards, and the j-th kept cards come from the same position |
| Filter.ApplyIdentityIff | script.js:456-479 | the filter returns the whole list exactly when every card passes every active test |
| Filter.ApplyNoCriteria | script.js:456-479 | with category "all", nationality "all" and an empty term, all cards are returned in order |
| Filter.ApplyIdempotent | script.js:455-481 | filtering the filtered list again by the same fields changes nothing |
| Filter.ApplyKeepsYearOrder | script.js:455-481 | the filtered list keeps the newest-first order |
| Filter.SearchFindsOwnYearAndName | script.js:473-478 | a card passing the other tests is found by its own year and by any piece of its lower-cased name |
| Filter.UnknownCategoryShowsNothing | script.js:459-463 | a category no card has empties the result |
| Filter.SearchScenario | script.js:473-478 | searching "marquez" over Marquez 2019, Marquez 2016 and Lorenzo 2015 keeps the two Marquez cards in that order |
| Nationalities.Insert | script.js:308-311 | adding a nationality to the sorted option list keeps it strictly sorted and adds exactly that value |
| Nationalities.NationalityOptions | script.js:307-311 | the options are strictly sorted, have no duplicates, and are exactly the non-empty nationalities of the cards |
| Nationalities.SortedOptionsUnique | script.js:308-311 | a strictly sorted list is determined by its elements, so the options equal the sorted de-duplicated list |
| Keyboard.NextFocus | script.js:370-378 | the focus target lies in [0, n); ArrowRight moves to the next button or wraps from the last to the first, ArrowLeft the reverse |
| Keyboard.FocusRoundTrip | script.js:370-378 | Right then Left, and Left then Right, return focus to the same button |
| View.FirstWithNationality | script.js:524-526 | `find` returns the first entry whose old-language nationality is the selection, or reports that none has it |
| View.RemapNationality | script.js:521-537 | after a language change, "all" stays "all"; otherwise the selection becomes the new-language nationality of the first entry whose old-language nationality was selected, and "all" only when no entry had it |
| View.InitValid | script.js:590-595 | the app comes up exactly when the initial language is pt, es or en (for other codes `applyLanguage` at script.js:166-178 is taken to throw), which always holds when no language was saved; it then satisfies the invariant, shows every card, and has its cursor at 0 |
| View.StepValid | script.js:324-436 | every event handler keeps the invariant |
| View.RunValid | script.js:324-436 | any sequence of events keeps the invariant |
| View.ValidShowsFilteredCards | script.js:455-484 | in a valid state the cursor points into a non-empty list, the list is newest first, and it holds exactly the catalog cards that pass the filter |
| View.FilterEventsResetCursor | script.js:482 | every filter change, and every change to a supported language, resets the cursor to 0 and recomputes the list |
| View.SearchByYear | script.js:325-327 | typing a year shows every card of that year that passes the category and nationality tests |
| View.UnknownCategoryEmptiesView | script.js:336-348 | choosing a category no card has empties the list and puts the cursor at 0 |
| View.CategoryChangeSelects | script.js:336-348 | after a category click the list holds exactly the catalog cards of that category (every card for "all") that pass the nationality and search tests |
| View.NationalityChangeSelects | script.js:384-387 | after choosing a nationality the list holds exactly the catalog cards of that nationality (every card for "all") that pass the category and search tests |
| View.NavigateCommitsOrReleases | script.js:487-496 | an in-range step commits index+direction; an out-of-range step keeps the index and releases the guard; the list, layout and filters never change |
| View.NavigateRoundTrip | script.js:487-493 | a committed step is undone by the opposite step |
| View.NavigateKeepsCursorInRange | script.js:487-493 | navigation keeps the cursor inside the filtered list, or at 0 when it is empty |
| View.NavButtonsMatchNavigation | script.js:434-435 | a click on prev leaves the cursor in place exactly when `updateNavButtons` (script.js:507-511) disables prev, and otherwise moves it one card back; a click on next leaves it in place exactly when next is disabled, and otherwise moves it one card forward |
| View.NextOnMiddleOfThree | script.js:507-511 | with three cards and the cursor at 1, next moves it to 2, with prev enabled and next disabled |
| View.LayoutSwitch | script.js:390-451 | clicking the current layout changes nothing; the other layout switches and resets only the cursor |
| View.WheelIgnored | script.js:408-414 | the wheel does nothing outside the detailed layout, while the guard is held, or on a narrow screen |
| View.WheelMovesAndGuards | script.js:419-427 | an accepted wheel event moves down for deltaY > 0 and up otherwise; the guard stays held exactly when the cursor moved |
| View.SecondWheelIgnored | script.js:408-419 | while the guard is held, a second wheel event changes nothing |
| View.GuardTimeoutReleases | script.js:428 | the timeout releases the guard and changes nothing else, so in the detailed layout on a wide screen the next wheel event moves the cursor again when the step stays in range |
| View.WheelBurstMovesAtMostOnce | script.js:405-431 | a burst of wheel events with no timeout in between moves the cursor by at most one card |
| View.LanguageChangeKeepsSelection | script.js:513-540 | when the selected nationality is "all" or held by some entry, switching to a supported language whose nationalities translate consistently with the current one does four things. It sets the language and remaps the selection. Every card shown is rebuilt in the new language. The same entries are shown in the same order, with the cursor at 0 |
| View.UnsupportedLanguageIgnored | script.js:203-206 | choosing a language code other than pt, es or en leaves the app unchanged, because `applyLanguage` is taken to throw before `onLanguageChange` runs |
| View.LanguageChangeTakesEffect | script.js:513-540 | a change to pt, es or en switches the language, keeps the entries, shows only cards rebuilt in the new language from those entries, remaps the selected nationality, and resets the cursor to 0 |

## Left out

- Rendering and HTML templating are not modelled: `render`, `renderDetailedView`, `createHTMLElement`, `getDetailedViewHTML`, and the class toggling in `toggleLayout`. They only write to the page.
- `loadData` is left out: the fetch, the JSON parsing, and the year sort at script.js:256. `View.Init` takes entries that are already newest first. An empty list stands for a failed load.
- The theme switcher, the translation texts, and the localStorage and `navigator.language` reads are left out. `Catalog.InitialLang` takes the saved value and the browser language as inputs. Of `applyLanguage` only its failure is modelled: the translation table has entries for pt, es and en, and for other codes the lookup `translations[lang][key]` at script.js:178 throws. `View.Init` then returns `None` and `View.Step` ignores the language change.
- The 800 ms `setTimeout` that releases the wheel guard is not modelled as a timer. It is the explicit event `GuardTimeout`.
- The screen-width test `innerWidth <= 768` is the boolean input `narrowScreen`, and `deltaY` is a `real`.
- Lower-casing covers ASCII letters only. Unicode case mapping is not modelled.
- `sort()` compares UTF-16 code units. The model compares Unicode code points, which order the same way except for characters outside the Basic Multilingual Plane.
- JavaScript's `null` and `undefined` nationalities are both `None`. The source tells them apart with `===`.
- Moving keyboard focus, `preventDefault`, and the DOM updates of the nationality `<select>` are not modelled. Only the index arithmetic and the option values are.
- A category button with no `data-category` would store `undefined` as the category. The model's category is always a string.
- `data-layout` is read as a string. The model's `Layout` has only the two values the page offers, grid and detailed.
- `chat.js` is not part of this model. It is page glue plus a remote request, with no local logic.
- Text.DecimalRoundTrip: years are unbounded integers printed in plain decimal. This matches JavaScript's `Number(year)` and `toString()` only for integers below 2^53 in magnitude. Beyond that a double rounds the year, and from 1e21 on `toString()` uses exponent form; neither is modelled.
- View.Init: a language code naming an inherited `Object.prototype` property (`constructor`, `toString`, `__proto__`, ...) makes `translations[lang]` defined, so `applyLanguage` does not throw and the source shows English cards. The model treats these codes like any other code outside pt, es and en: `View.Init` gives no app and `View.Step` ignores the change. Modelling JavaScript's prototype chain is out of scope.
- Catalog.MakeCard: its contract only states that the raw entry is kept. Which language block is copied is stated by `Catalog.CardLanguageMatchesBlock`.

=== FILE: catalog.dfy ===
/**
 * The catalog's records: the raw JSON entry with its three language blocks,
 * the Card built from it for one language, and the choice of the initial language.
 */
module Catalog {
  import opened Wrappers
  import opened Text

  /** One language block of a raw entry (`data.pt`, `data.es`, `data.en`). */
  datatype LangData = LangData(description: string, alt: string, nationality: Option<string>)

  /** One entry of the data file; the year is already a number. */
  datatype RawItem = RawItem(
    name: string, year: int, category: string, image: Option<string>, team: string,
    wins: int, podiums: int, poles: int,
    pt: LangData, es: LangData, en: LangData)

  /** A champion card: the language-independent fields, the chosen language's block, and the raw entry. */
  datatype Card = Card(
    name: string, year: int, category: string, image: Option<string>, team: string,
    wins: int, podiums: int, poles: int,
    description: string, alt: string, nationality: Option<string>,
    rawData: RawItem)

  /** The language codes that have a block in every entry. */
  const Supported: set<string> := {"pt", "es", "en"}

  /** The block the Card constructor reads: Portuguese, Spanish, and English for every other code. */
  function CardLangData(raw: RawItem, lang: string): LangData {
    if lang == "pt" then raw.pt else if lang == "es" then raw.es else raw.en
  }

  /**
   * `data[lang]` as a language block: entries hold blocks only under pt, es and en. Any
   * other key yields no block with a nationality, including an inherited property such as
   * `constructor`.
   */
  function LangBlock(raw: RawItem, lang: string): Option<LangData> {
    if lang == "pt" then Some(raw.pt)
    else if lang == "es" then Some(raw.es)
    else if lang == "en" then Some(raw.en)
    else None
  }

  /** `data[lang]?.nationality`: undefined when there is no block under lang. */
  function BlockNationality(raw: RawItem, lang: string): Option<string> {
    match LangBlock(raw, lang)
    case Some(block) => block.nationality
    case None => None
  }

  /** The Card constructor: copies the shared fields and the language block, keeps the raw entry. */
  function MakeCard(raw: RawItem, lang: string): (c: Card)
    ensures c.rawData == raw
  {
    var block := CardLangData(raw, lang);
    Card(raw.name, raw.year, raw.category, raw.image, raw.team,
         raw.wins, raw.podiums, raw.poles,
         block.description, block.alt, block.nationality, raw)
  }

  /** `allData.map(item => new Card(item, lang))`. */
  function MakeCards(data: seq<RawItem>, lang: string): (cards: seq<Card>)
    ensures |cards| == |data|
  {
    seq(|data|, i requires 0 <= i < |data| => MakeCard(data[i], lang))
  }

  /**
   * The block a card reads is the block stored under its language exactly when that
   * language is supported; for any other code the card falls back to English while
   * `data[lang]` holds nothing.
   */
  lemma CardLanguageMatchesBlock(raw: RawItem, lang: string)
    ensures lang in Supported <==> LangBlock(raw, lang) == Some(CardLangData(raw, lang))
    ensures lang !in Supported ==> LangBlock(raw, lang) == None && CardLangData(raw, lang) == raw.en
    ensures lang in Supported ==> MakeCard(raw, lang).nationality == BlockNationality(raw, lang)
  {
  }

  /** `tag.split("-")[0]`: the text before the first hyphen, or all of it. */
  function PrimarySubtag(tag: string): (r: string)
    ensures |r| <= |tag| && r == tag[..|r|]
    ensures '-' !in r
    ensures |r| == |tag| || tag[|r|] == '-'
  {
    if tag == [] || tag[0] == '-' then [] else [tag[0]] + PrimarySubtag(tag[1..])
  }

  /**
   * `getInitialLang`: a non-empty saved language wins; otherwise English or Spanish when
   * the browser's primary subtag says so, and Portuguese by default.
   */
  function InitialLang(saved: Option<string>, browserLanguage: string): (r: string)
    ensures saved.Some? && saved.value != "" ==> r == saved.value
    ensures !(saved.Some? && saved.value != "") ==> r in Supported
    ensures !(saved.Some? && saved.value != "") ==>
      (r == "pt" <==> PrimarySubtag(browserLanguage) !in {"en", "es"})
    ensures !(saved.Some? && saved.value != "") && PrimarySubtag(browserLanguage) in {"en", "es"} ==>
      r == PrimarySubtag(browserLanguage)
  {
    if saved.Some? && saved.value != "" then saved.value
    else
      var primary := PrimarySubtag(browserLanguage);
      if primary == "en" then "en" else if primary == "es" then "es" else "pt"
  }

  /** Items ordered by their year, most recent first (the order loadData sorts into). */
  predicate YearsDescending<T>(items: seq<T>, year: T -> int) {
    forall i, j :: 0 <= i < j < |items| ==> year(items[i]) >= year(items[j])
  }

  predicate RawNewestFirst(data: seq<RawItem>) {
    YearsDescending(data, (d: RawItem) => d.year)
  }

  predicate NewestFirst(cards: seq<Card>) {
    YearsDescending(cards, (c: Card) => c.year)
  }

  /** Building cards keeps each entry in place, so the year order carries over. */
  lemma MakeCardsKeepsOrder(data: seq<RawItem>, lang: string)
    requires RawNewestFirst(data)
    ensures NewestFirst(MakeCards(data, lang))
    ensures forall i :: 0 <= i < |data| ==> MakeCards(data, lang)[i].rawData == data[i]
  {
  }
}

=== FILE: filter.dfy ===
/**
 * The pure part of `filterAndRender`: the year-ordered card list is narrowed by
 * category, then by nationality, then by the search term.
 */
module Filter {
  import opened Wrappers
  import opened Text
  import opened Catalog

  /** The sentinel value meaning "no constraint" for category and nationality. */
  const All: string := "all"

  /** The filter fields of the app: current category, nationality and search term. */
  datatype Criteria = Criteria(category: string, nationality: Option<string>, term: string)

  /** The criteria of a freshly started app. */
  const NoCriteria: Criteria := Criteria(All, Some(All), "")

  /** The search test: the lower-cased name or the year's decimal form contains the term. */
  predicate NameOrYearHit(c: Card, term: string) {
    Contains(Lower(c.name), term) || Contains(DecimalString(c.year), term)
  }

  predicate CategoryOk(c: Card, k: Criteria) {
    k.category == All || c.category == k.category
  }

  predicate NationalityOk(c: Card, k: Criteria) {
    k.nationality == Some(All) || c.nationality == k.nationality
  }

  predicate SearchOk(c: Card, k: Criteria) {
    k.term == [] || NameOrYearHit(c, k.term)
  }

  /** A card passes every active constraint. */
  predicate Matches(c: Card, k: Criteria) {
    CategoryOk(c, k) && NationalityOk(c, k) && SearchOk(c, k)
  }

  // ----- Array.prototype.filter -------------------------------------------

  /** `s.filter(p)`: the elements satisfying p, in their original order. */
  function Retain<T>(s: seq<T>, p: T -> bool): (r: seq<T>)
    ensures |r| <= |s|
    ensures forall x :: x in r ==> x in s && p(x)
    ensures forall x :: x in s && p(x) ==> x in r
    decreases |s|
  {
    if s == [] then []
    else if p(s[0]) then [s[0]] + Retain(s[1..], p)
    else Retain(s[1..], p)
  }

  /** Every position moved up by one, for positions counted in a list's tail. */
  function Shift(idx: seq<nat>): seq<nat> {
    seq(|idx|, j requires 0 <= j < |idx| => idx[j] + 1)
  }

  /** The positions of s whose element satisfies p, in increasing order. */
  function Positions<T>(s: seq<T>, p: T -> bool): seq<nat>
    decreases |s|
  {
    if s == [] then []
    else if p(s[0]) then [0] + Shift(Positions(s[1..], p))
    else Shift(Positions(s[1..], p))
  }

  ghost predicate Increasing(idx: seq<nat>) {
    forall j, j' :: 0 <= j < j' < |idx| ==> idx[j] < idx[j']
  }

  /** Shifting moves every position up by one, keeping their order. */
  lemma ShiftSpec(idx: seq<nat>)
    ensures Increasing(idx) ==> Increasing(Shift(idx))
    ensures forall i :: i in Shift(idx) <==> i >= 1 && i - 1 in idx
  {
    forall i
      ensures i in Shift(idx) <==> i >= 1 && i - 1 in idx
    {
      if i >= 1 && i - 1 in idx {
        var j :| 0 <= j < |idx| && idx[j] == i - 1;
        assert Shift(idx)[j] == i;
      }
    }
  }

  /** Positions lists, in increasing order, exactly the indices whose element satisfies p. */
  lemma {:induction false} PositionsSpec<T>(s: seq<T>, p: T -> bool)
    ensures forall j :: 0 <= j < |Positions(s, p)| ==> Positions(s, p)[j] < |s|
    ensures Increasing(Positions(s, p))
    ensures forall i :: 0 <= i < |s| ==> (p(s[i]) <==> i in Positions(s, p))
    decreases |s|
  {
    if s != [] {
      var rest := Positions(s[1..], p);
      PositionsSpec(s[1..], p);
      ShiftSpec(rest);
      var shifted := Shift(rest);
      assert forall i :: 1 <= i < |s| ==> s[i] == s[1..][i - 1];
      assert 0 !in shifted;
    }
  }

  /** Filtering picks the elements at exactly those positions, in that order. */
  lemma {:induction false} RetainIsPositions<T>(s: seq<T>, p: T -> bool)
    ensures |Retain(s, p)| == |Positions(s, p)|
    ensures forall j :: 0 <= j < |Positions(s, p)| ==>
      Positions(s, p)[j] < |s| && Retain(s, p)[j] == s[Positions(s, p)[j]]
    decreases |s|
  {
    if s != [] {
      var rest, tail := Positions(s[1..], p), Retain(s[1..], p);
      RetainIsPositions(s[1..], p);
      var shifted := Shift(rest);
      assert forall j :: 0 <= j < |rest| ==> shifted[j] < |s| && tail[j] == s[shifted[j]];
      if p(s[0]) {
        assert Positions(s, p) == [0] + shifted;
        assert Retain(s, p) == [s[0]] + tail;
      } else {
        assert Positions(s, p) == shifted;
        assert Retain(s, p) == tail;
      }
    }
  }

  /** Filters whose predicates agree on the elements of s give the same result. */
  lemma {:induction false} RetainCongruent<T>(s: seq<T>, p: T -> bool, q: T -> bool)
    requires forall x :: x in s ==> (p(x) <==> q(x))
    ensures Retain(s, p) == Retain(s, q)
    decreases |s|
  {
    if s != [] {
      assert forall x :: x in s[1..] ==> x in s;
      RetainCongruent(s[1..], p, q);
    }
  }

  /** A filter that every element passes returns its input. */
  lemma {:induction false} RetainEverything<T>(s: seq<T>, p: T -> bool)
    requires forall x :: x in s ==> p(x)
    ensures Retain(s, p) == s
    decreases |s|
  {
    if s != [] {
      assert forall x :: x in s[1..] ==> x in s;
      RetainEverything(s[1..], p);
    }
  }

  /** A filter that no element passes returns the empty sequence. */
  lemma {:induction false} RetainNothing<T>(s: seq<T>, p: T -> bool)
    requires forall x :: x in s ==> !p(x)
    ensures Retain(s, p) == []
    decreases |s|
  {
    if s != [] {
      assert forall x :: x in s[1..] ==> x in s;
      RetainNothing(s[1..], p);
    }
  }

  /** Two filters in a row are one filter by the conjunction. */
  lemma {:induction false} RetainTwice<T>(s: seq<T>, p: T -> bool, q: T -> bool, pq: T -> bool)
    requires forall x :: pq(x) <==> p(x) && q(x)
    ensures Retain(Retain(s, p), q) == Retain(s, pq)
    decreases |s|
  {
    if s != [] {
      RetainTwice(s[1..], p, q, pq);
    }
  }

  /** Filters over equally long sequences that agree position by position keep the same positions. */
  lemma {:induction false} PositionsAgree<T, U>(s: seq<T>, p: T -> bool, t: seq<U>, q: U -> bool)
    requires |s| == |t|
    requires forall i :: 0 <= i < |s| ==> (p(s[i]) <==> q(t[i]))
    ensures Positions(s, p) == Positions(t, q)
    decreases |s|
  {
    if s != [] {
      assert p(s[0]) <==> q(t[0]);
      forall i | 0 <= i < |s| - 1
        ensures p(s[1..][i]) <==> q(t[1..][i])
      {
        assert s[1..][i] == s[i + 1] && t[1..][i] == t[i + 1];
      }
      PositionsAgree(s[1..], p, t[1..], q);
    }
  }

  // ----- filterAndRender --------------------------------------------------

  /** The three narrowing steps of `filterAndRender`, each skipped when its field is inactive. */
  function Apply(cards: seq<Card>, k: Criteria): seq<Card> {
    var byCategory :=
      if k.category != All then Retain(cards, (c: Card) => c.category == k.category) else cards;
    var byNationality :=
      if k.nationality != Some(All) then Retain(byCategory, (c: Card) => c.nationality == k.nationality)
      else byCategory;
    if k.term != [] then Retain(byNationality, (c: Card) => NameOrYearHit(c, k.term))
    else byNationality
  }

  /** The step-by-step narrowing is a single filter by the conjunction of the three tests. */
  lemma ApplyIsSingleFilter(cards: seq<Card>, k: Criteria)
    ensures Apply(cards, k) == Retain(cards, (c: Card) => Matches(c, k))
  {
    var pc := (c: Card) => CategoryOk(c, k);
    var pn := (c: Card) => NationalityOk(c, k);
    var ps := (c: Card) => SearchOk(c, k);
    var pcn := (c: Card) => CategoryOk(c, k) && NationalityOk(c, k);
    var m := (c: Card) => Matches(c, k);

    var byCategory :=
      if k.category != All then Retain(cards, (c: Card) => c.category == k.category) else cards;
    if k.category != All {
      RetainCongruent(cards, (c: Card) => c.category == k.category, pc);
    } else {
      RetainEverything(cards, pc);
    }
    assert byCategory == Retain(cards, pc);

    var byNationality :=
      if k.nationality != Some(All) then Retain(byCategory, (c: Card) => c.nationality == k.nationality)
      else byCategory;
    if k.nationality != Some(All) {
      RetainCongruent(byCategory, (c: Card) => c.nationality == k.nationality, pn);
    } else {
      RetainEverything(byCategory, pn);
    }
    RetainTwice(cards, pc, pn, pcn);
    assert byNationality == Retain(cards, pcn);

    if k.term != [] {
      RetainCongruent(byNationality, (c: Card) => NameOrYearHit(c, k.term), ps);
    } else {
      RetainEverything(byNationality, ps);
    }
    RetainTwice(cards, pcn, ps, m);
  }

  /** A card is shown exactly when it is in the list and passes every active constraint. */
  lemma ApplyMembership(cards: seq<Card>, k: Criteria)
    ensures forall c :: c in Apply(cards, k) <==> c in cards && Matches(c, k)
  {
    ApplyIsSingleFilter(cards, k);
  }

  /**
   * The result is the order-preserving subsequence of the cards at exactly the
   * positions whose card passes every active constraint: a kept card passes all
   * of them, a dropped card fails at least one.
   */
  lemma ApplySelectsMatchingPositions(cards: seq<Card>, k: Criteria)
    ensures var r := Apply(cards, k);
      var idx := Positions(cards, (c: Card) => Matches(c, k));
      && |r| == |idx|
      && Increasing(idx)
      && (forall j :: 0 <= j < |idx| ==> idx[j] < |cards| && r[j] == cards[idx[j]])
      && (forall i :: 0 <= i < |cards| ==> (Matches(cards[i], k) <==> i in idx))
  {
    var m := (c: Card) => Matches(c, k);
    ApplyIsSingleFilter(cards, k);
    PositionsSpec(cards, m);
    RetainIsPositions(cards, m);
  }

  /**
   * Two equally long lists whose cards pass their filters at the same positions are
   * narrowed to the same positions: the j-th survivors come from the same position.
   */
  lemma ApplyAtSamePositions(cards: seq<Card>, k: Criteria, cards': seq<Card>, k': Criteria)
    requires |cards| == |cards'|
    requires forall i :: 0 <= i < |cards| ==> (Matches(cards[i], k) <==> Matches(cards'[i], k'))
    ensures |Apply(cards, k)| == |Apply(cards', k')|
    ensures forall j :: 0 <= j < |Apply(cards, k)| ==>
      exists i :: 0 <= i < |cards| && Apply(cards, k)[j] == cards[i] && Apply(cards', k')[j] == cards'[i]
  {
    var m := (c: Card) => Matches(c, k);
    var m' := (c: Card) => Matches(c, k');
    PositionsAgree(cards, m, cards', m');
    ApplySelectsMatchingPositions(cards, k);
    ApplySelectsMatchingPositions(cards', k');
    var idx := Positions(cards, m);
    forall j | 0 <= j < |Apply(cards, k)|
      ensures exists i :: 0 <= i < |cards| && Apply(cards, k)[j] == cards[i] && Apply(cards', k')[j] == cards'[i]
    {
      assert Apply(cards, k)[j] == cards[idx[j]] && Apply(cards', k')[j] == cards'[idx[j]];
    }
  }

  /** Nothing is narrowed exactly when every card passes every active constraint. */
  lemma ApplyIdentityIff(cards: seq<Card>, k: Criteria)
    ensures Apply(cards, k) == cards <==> forall i :: 0 <= i < |cards| ==> Matches(cards[i], k)
  {
    var m := (c: Card) => Matches(c, k);
    ApplyIsSingleFilter(cards, k);
    if forall i :: 0 <= i < |cards| ==> Matches(cards[i], k) {
      RetainEverything(cards, m);
    }
    if Apply(cards, k) == cards {
      forall i | 0 <= i < |cards|
        ensures Matches(cards[i], k)
      {
        assert cards[i] in Retain(cards, m);
      }
    }
  }

  /** With category "all", nationality "all" and an empty term every card is shown, in order. */
  lemma ApplyNoCriteria(cards: seq<Card>)
    ensures Apply(cards, NoCriteria) == cards
  {
    ApplyIdentityIff(cards, NoCriteria);
  }

  /** Filtering an already filtered list again changes nothing. */
  lemma ApplyIdempotent(cards: seq<Card>, k: Criteria)
    ensures Apply(Apply(cards, k), k) == Apply(cards, k)
  {
    var r := Apply(cards, k);
    ApplyMembership(cards, k);
    assert forall i :: 0 <= i < |r| ==> r[i] in r;
    ApplyIdentityIff(r, k);
  }

  /** The result keeps the newest-first order of the card list. */
  lemma ApplyKeepsYearOrder(cards: seq<Card>, k: Criteria)
    requires NewestFirst(cards)
    ensures NewestFirst(Apply(cards, k))
  {
    ApplySelectsMatchingPositions(cards, k);
  }

  /** Searching for a card's year, or for a piece of its lower-cased name, finds it. */
  lemma SearchFindsOwnYearAndName(c: Card, k: Criteria, from: nat, to: nat)
    requires CategoryOk(c, k) && NationalityOk(c, k)
    requires from <= to <= |c.name|
    ensures Matches(c, k.(term := DecimalString(c.year)))
    ensures Matches(c, k.(term := Lower(c.name)[from..to]))
  {
    ContainsSelf(DecimalString(c.year));
    var name := Lower(c.name);
    assert OccursAt(name, name[from..to], from);
    ContainsIffOccurs(name, name[from..to]);
  }

  /** When no card has the chosen category, nothing is shown. */
  lemma UnknownCategoryShowsNothing(cards: seq<Card>, k: Criteria)
    requires k.category != All
    requires forall i :: 0 <= i < |cards| ==> cards[i].category != k.category
    ensures Apply(cards, k) == []
  {
    ApplyIsSingleFilter(cards, k);
    RetainNothing(cards, (c: Card) => Matches(c, k));
  }

  /** A four-digit year string is too short to contain "marquez". */
  lemma YearDoesNotContainName(year: int)
    requires 1000 <= year < 10000
    ensures !Contains(DecimalString(year), "marquez")
  {
    assert |Digits(year)| == 4 by {
      assert |Digits(year / 10)| == 3 by {
        assert |Digits(year / 100)| == 2;
      }
    }
  }

  /** A card named Marquez passes the search for "marquez" with no other test active. */
  lemma MarquezMatches(c: Card)
    requires c.name == "Marquez"
    ensures Matches(c, NoCriteria.(term := "marquez"))
  {
    assert Lower("Marquez") == "marquez";
    ContainsSelf("marquez");
  }

  /** A card named Lorenzo with a four-digit year fails the search for "marquez". */
  lemma LorenzoMisses(c: Card)
    requires c.name == "Lorenzo" && 1000 <= c.year < 10000
    ensures !Matches(c, NoCriteria.(term := "marquez"))
  {
    var name := Lower("Lorenzo");
    assert forall i :: 0 <= i < 7 ==> name[i] == "lorenzo"[i];
    assert name == "lorenzo";
    assert !Contains("orenzo", "marquez");
    assert !Contains("lorenzo", "marquez");
    YearDoesNotContainName(c.year);
  }

  /**
   * Searching "marquez" over the titles of Marquez in 2019 and 2016 and of Lorenzo in
   * 2015 keeps both Marquez cards, in order, and drops the other.
   */
  lemma SearchScenario(a: Card, b: Card, c: Card)
    requires a.name == "Marquez" && a.year == 2019
    requires b.name == "Marquez" && b.year == 2016
    requires c.name == "Lorenzo" && c.year == 2015
    ensures Apply([a, b, c], NoCriteria.(term := "marquez")) == [a, b]
  {
    var k := NoCriteria.(term := "marquez");
    var m := (x: Card) => Matches(x, k);
    MarquezMatches(a);
    MarquezMatches(b);
    LorenzoMisses(c);
    ApplyIsSingleFilter([a, b, c], k);
    assert [a, b, c][1..] == [b, c] && [b, c][1..] == [c] && [c][1..] == [];
    assert Retain([c], m) == [];
    assert Retain([b, c], m) == [b];
  }
}

=== FILE: keyboard.dfy ===
/** Arrow-key focus movement among the category filter buttons. */
module Keyboard {

  datatype ArrowKey = ArrowRight | ArrowLeft

  /**
   * The index of the button that receives focus, with wrap-around at both ends.
   * The operands of `%` are never negative here, so JavaScript's truncating
   * remainder and Dafny's Euclidean one agree.
   */
  function NextFocus(current: nat, count: nat, key: ArrowKey): (r: nat)
    requires current < count
    ensures r < count
    ensures key == ArrowRight ==> (r == current + 1 || (current == count - 1 && r == 0))
    ensures key == ArrowLeft ==> (r == current - 1 || (current == 0 && r == count - 1))
  {
    match key
    case ArrowRight =>
      ModBelowCount(current + 1, count);
      (current + 1) % count
    case ArrowLeft =>
      ModBelowCount(current - 1 + count, count);
      (current - 1 + count) % count
  }

  /** The remainder of a value in [0, 2 * count) by count. */
  lemma ModBelowCount(x: int, count: int)
    requires 0 <= x < 2 * count
    ensures x < count ==> x % count == x
    ensures count <= x ==> x % count == x - count
  {
    if x < count {
      assert x == 0 * count + x;
    } else {
      assert x == 1 * count + (x - count);
    }
  }

  /** Right then Left, or Left then Right, returns focus to the same button. */
  lemma FocusRoundTrip(current: nat, count: nat)
    requires current < count
    ensures NextFocus(NextFocus(current, count, ArrowRight), count, ArrowLeft) == current
    ensures NextFocus(NextFocus(current, count, ArrowLeft), count, ArrowRight) == current
  {
  }
}

=== FILE: nationalities.dfy ===
/**
 * The option list of the nationality filter (`populateNationalityFilter`): the
 * distinct nationalities of the cards, without empty or missing values, sorted
 * in the default string order.
 */
module Nationalities {
  import opened Wrappers
  import opened Text
  import opened Catalog

  /** Strictly ascending in the default string order, hence also free of duplicates. */
  predicate StrictlySorted(s: seq<string>) {
    forall i, j :: 0 <= i < j < |s| ==> LexLess(s[i], s[j])
  }

  /** n is offered: some card among the first `upTo` has it, and it is not the empty string. */
  predicate OfferedAmong(cards: seq<Card>, upTo: nat, n: string)
    requires upTo <= |cards|
  {
    n != "" && exists i :: 0 <= i < upTo && cards[i].nationality == Some(n)
  }

  /** Adds x to a strictly sorted list at its place; a value already present is not repeated. */
  function Insert(s: seq<string>, x: string): (r: seq<string>)
    requires StrictlySorted(s)
    ensures StrictlySorted(r)
    ensures forall y :: y in r <==> y in s || y == x
    decreases |s|
  {
    LexLessStrictOrder();
    if s == [] then [x]
    else if x == s[0] then s
    else if LexLess(x, s[0]) then [x] + s
    else
      assert LexLess(s[0], x);
      assert forall y :: y in s[1..] ==> LexLess(s[0], y) by {
        forall y | y in s[1..]
          ensures LexLess(s[0], y)
        {
          var i :| 0 <= i < |s[1..]| && s[1..][i] == y;
          assert s[i + 1] == y;
        }
      }
      var rest := Insert(s[1..], x);
      assert forall j :: 0 <= j < |rest| ==> rest[j] in rest && LexLess(s[0], rest[j]);
      [s[0]] + rest
  }

  /** The option values shown under "all", built one card at a time. */
  method NationalityOptions(cards: seq<Card>) returns (options: seq<string>)
    ensures StrictlySorted(options)
    ensures forall i, j :: 0 <= i < j < |options| ==> options[i] != options[j]
    ensures forall n :: n in options <==> OfferedAmong(cards, |cards|, n)
  {
    options := [];
    var k := 0;
    while k < |cards|
      invariant k <= |cards|
      invariant StrictlySorted(options)
      invariant forall n :: n in options <==> OfferedAmong(cards, k, n)
    {
      match cards[k].nationality {
        case Some(n) =>
          if n != "" {
            options := Insert(options, n);
          }
        case None =>
      }
      k := k + 1;
    }
    LexLessStrictOrder();
  }

  /**
   * A strictly sorted list is determined by its elements, so the options are the
   * one list `[...new Set(...)].filter(Boolean).sort()` produces.
   */
  lemma {:induction false} SortedOptionsUnique(a: seq<string>, b: seq<string>)
    requires StrictlySorted(a) && StrictlySorted(b)
    requires forall x :: x in a <==> x in b
    ensures a == b
    decreases |a|
  {
    LexLessStrictOrder();
    if a != [] {
      assert a[0] in a;
    }
    if b != [] {
      assert b[0] in b;
    }
    if a != [] && b != [] {
      assert a == [a[0]] + a[1..] && b == [b[0]] + b[1..];
      forall x
        ensures x in a[1..] <==> x in b[1..]
      {
        if x in a[1..] {
          var i :| 1 <= i < |a| && a[i] == x;
          assert LexLess(a[0], x);
          assert x in b && x != b[0];
        }
        if x in b[1..] {
          var j :| 1 <= j < |b| && b[j] == x;
          assert LexLess(b[0], x);
          assert x in a && x != a[0];
        }
      }
      SortedOptionsUnique(a[1..], b[1..]);
    }
  }
}

=== FILE: text.dfy ===
/**
 * String helpers the catalog relies on: ASCII lower-casing (`toLowerCase`),
 * substring search (`includes`), the decimal form of an integer
 * (`Number.prototype.toString`) and the default string order of `Array.prototype.sort`.
 */
module Text {

  predicate IsUpper(c: char) {
    'A' <= c <= 'Z'
  }

  /** Lower-cases one ASCII letter; every other character is kept. */
  function LowerChar(c: char): char {
    if IsUpper(c) then (c as int + 32) as char else c
  }

  predicate IsLowerCase(s: string) {
    forall i :: 0 <= i < |s| ==> !IsUpper(s[i])
  }

  /** `s.toLowerCase()`, restricted to the ASCII letters. */
  function Lower(s: string): (r: string)
    ensures |r| == |s|
    ensures IsLowerCase(r)
    ensures forall i :: 0 <= i < |s| && !IsUpper(s[i]) ==> r[i] == s[i]
    ensures forall i :: 0 <= i < |s| && IsUpper(s[i]) ==> r[i] as int == s[i] as int + 32
  {
    if s == [] then [] else [LowerChar(s[0])] + Lower(s[1..])
  }

  /** Lower-casing a string that is already lower case changes nothing. */
  lemma {:induction false} LowerKeepsLowerCase(s: string)
    requires IsLowerCase(s)
    ensures Lower(s) == s
  {
    if s != [] {
      assert IsLowerCase(s[1..]);
      LowerKeepsLowerCase(s[1..]);
    }
  }

  // ----- substring search -------------------------------------------------

  /** `h.includes(n)`: n occurs somewhere in h (the empty string occurs everywhere). */
  function Contains(h: string, n: string): bool
    decreases |h|
  {
    |n| <= |h| && (h[..|n|] == n || Contains(h[1..], n))
  }

  ghost predicate OccursAt(h: string, n: string, i: int) {
    0 <= i && i + |n| <= |h| && h[i..i + |n|] == n
  }

  /** The recursive search agrees with the positional definition of an occurrence. */
  lemma {:induction false} ContainsIffOccurs(h: string, n: string)
    ensures Contains(h, n) <==> exists i :: OccursAt(h, n, i)
    decreases |h|
  {
    if |n| > |h| {
    } else if h[..|n|] == n {
      assert h[0..0 + |n|] == h[..|n|];
      assert OccursAt(h, n, 0);
    } else {
      ContainsIffOccurs(h[1..], n);
      if Contains(h[1..], n) {
        var j :| OccursAt(h[1..], n, j);
        assert h[1..][j..j + |n|] == h[j + 1..j + 1 + |n|];
        assert OccursAt(h, n, j + 1);
      }
      if exists i :: OccursAt(h, n, i) {
        var i :| OccursAt(h, n, i);
        assert h[0..0 + |n|] == h[..|n|];
        assert i != 0;
        assert h[1..][i - 1..i - 1 + |n|] == h[i..i + |n|];
        assert OccursAt(h[1..], n, i - 1);
      }
    }
  }

  /** Every string contains itself. */
  lemma ContainsSelf(s: string)
    ensures Contains(s, s)
  {
    assert s[..|s|] == s;
  }

  // ----- decimal strings --------------------------------------------------

  predicate IsDigit(c: char) {
    '0' <= c <= '9'
  }

  function DigitChar(d: nat): (c: char)
    requires d < 10
  {
    ('0' as int + d) as char
  }

  /** The decimal digits of n, most significant first, without leading zeros. */
  function Digits(n: nat): (r: string)
    ensures |r| >= 1
    ensures AllDigits(r)
    ensures r[0] == '0' ==> n == 0
    decreases n
  {
    if n < 10 then [DigitChar(n)] else Digits(n / 10) + [DigitChar(n % 10)]
  }

  /**
   * `y.toString()` for an integer y: an optional minus sign and the plain decimal digits.
   * This matches JavaScript only for |y| < 2^53, where a double holds y exactly and is
   * printed without exponent form.
   */
  function DecimalString(y: int): string {
    if y < 0 then "-" + Digits(-y) else Digits(y)
  }

  predicate AllDigits(s: string) {
    forall i :: 0 <= i < |s| ==> IsDigit(s[i])
  }

  function ParseDigits(s: string): nat
    requires AllDigits(s)
  {
    if s == [] then 0 else ParseDigits(s[..|s| - 1]) * 10 + (s[|s| - 1] as int - '0' as int)
  }

  /** Reads back a string of the shape DecimalString produces. */
  function ParseDecimal(s: string): int
    requires |s| >= 1
    requires s[0] == '-' ==> AllDigits(s[1..])
    requires s[0] != '-' ==> AllDigits(s)
  {
    if s[0] == '-' then -(ParseDigits(s[1..]) as int) else ParseDigits(s)
  }

  lemma {:induction false} DigitsRoundTrip(n: nat)
    ensures ParseDigits(Digits(n)) == n
    decreases n
  {
    var r := Digits(n);
    if n >= 10 {
      DigitsRoundTrip(n / 10);
      assert r[..|r| - 1] == Digits(n / 10);
    }
  }

  /** The decimal form of a year is well formed and reads back as the same year. */
  lemma DecimalRoundTrip(y: int)
    ensures var s := DecimalString(y);
      && |s| >= 1
      && (s[0] == '-' ==> AllDigits(s[1..]))
      && (s[0] != '-' ==> AllDigits(s))
      && ParseDecimal(s) == y
  {
    var s := DecimalString(y);
    if y < 0 {
      assert s[1..] == Digits(-y);
      DigitsRoundTrip(-y);
    } else {
      DigitsRoundTrip(y);
    }
  }

  // ----- the default order of Array.prototype.sort ------------------------

  /** `a < b` on strings: the first differing character decides, a proper prefix comes first. */
  predicate LexLess(a: string, b: string)
    decreases |a|
  {
    if a == [] then b != []
    else if b == [] then false
    else if a[0] != b[0] then a[0] < b[0]
    else LexLess(a[1..], b[1..])
  }

  lemma {:induction false} LexLessIrreflexive(a: string)
    ensures !LexLess(a, a)
    decreases |a|
  {
    if a != [] {
      LexLessIrreflexive(a[1..]);
    }
  }

  lemma {:induction false} LexLessTransitive(a: string, b: string, c: string)
    requires LexLess(a, b) && LexLess(b, c)
    ensures LexLess(a, c)
    decreases |a|
  {
    if a != [] && a[0] == b[0] && b[0] == c[0] {
      LexLessTransitive(a[1..], b[1..], c[1..]);
    }
  }

  lemma {:induction false} LexLessTotal(a: string, b: string)
    requires a != b
    ensures LexLess(a, b) || LexLess(b, a)
    decreases |a|
  {
    if a != [] && b != [] && a[0] == b[0] {
      assert a == [a[0]] + a[1..] && b == [b[0]] + b[1..];
      LexLessTotal(a[1..], b[1..]);
    }
  }

  /** LexLess is a strict total order, stated for all strings at once. */
  lemma LexLessStrictOrder()
    ensures forall a :: !LexLess(a, a)
    ensures forall a, b, c :: LexLess(a, b) && LexLess(b, c) ==> LexLess(a, c)
    ensures forall a, b :: a != b ==> LexLess(a, b) || LexLess(b, a)
  {
    forall a: string
      ensures !LexLess(a, a)
    {
      LexLessIrreflexive(a);
    }
    forall a: string, b: string, c: string | LexLess(a, b) && LexLess(b, c)
      ensures LexLess(a, c)
    {
      LexLessTransitive(a, b, c);
    }
    forall a: string, b: string | a != b
      ensures LexLess(a, b) || LexLess(b, a)
    {
      LexLessTotal(a, b);
    }
  }
}

=== FILE: view.dfy ===
/**
 * The catalog view of the `App` class as an immutable state record with one
 * transition per user event: filter changes, layout switch, detailed-view
 * navigation by buttons and by the wheel (with its `isScrolling` guard), and
 * language change.
 */
module View {
  import opened Wrappers
  import opened Text
  import opened Catalog
  import opened Filter

  datatype Layout = Grid | Detailed

  /** The fields of `App` that the catalog view reads and writes. */
  datatype App = App(
    allData: seq<RawItem>,
    lang: string,
    allCards: seq<Card>,
    filtered: seq<Card>,
    layout: Layout,
    index: nat,
    isScrolling: bool,
    category: string,
    nationality: Option<string>,
    searchTerm: string)

  /**
   * The events the view reacts to. The wheel's screen-width test is the input
   * `narrowScreen` (`innerWidth <= 768`); the timer that releases the wheel guard
   * 800 ms later is the event GuardTimeout.
   */
  datatype Event =
    | SearchInput(value: string)
    | CategoryClick(category: string)
    | NationalityChange(value: string)
    | LayoutClick(layout: Layout)
    | Wheel(deltaY: real, narrowScreen: bool)
    | GuardTimeout
    | PrevClick
    | NextClick
    | LanguageChange(newLang: string)

  function CriteriaOf(s: App): Criteria {
    Criteria(s.category, s.nationality, s.searchTerm)
  }

  /** The state part of `filterAndRender`: recompute the filtered list and reset the cursor. */
  function FilterAndRender(s: App): App {
    s.(filtered := Apply(s.allCards, CriteriaOf(s)), index := 0)
  }

  /**
   * The app after loading: cards in the initial language, no filter, grid layout.
   * A saved language other than pt, es or en makes the language switcher's
   * `applyLanguage` look up a missing translation table and throw while the app is
   * constructed, so no app comes up (None).
   */
  function Init(allData: seq<RawItem>, savedLang: Option<string>, browserLanguage: string): Option<App> {
    var lang := InitialLang(savedLang, browserLanguage);
    if lang !in Supported then None
    else Some(FilterAndRender(App(allData, lang, MakeCards(allData, lang), [], Grid, 0, false, All, Some(All), "")))
  }

  /** `navigateDetailedView`: step the cursor, or at a boundary keep it and release the guard. */
  function Navigate(s: App, direction: int): App {
    var newIndex := s.index + direction;
    if newIndex < 0 || newIndex >= |s.filtered| then s.(isScrolling := false)
    else s.(index := newIndex)
  }

  datatype NavButtons = NavButtons(prevDisabled: bool, nextDisabled: bool)

  /** `updateNavButtons`: the disabled flags of the previous and next buttons. */
  function UpdateNavButtons(s: App): NavButtons {
    NavButtons(s.index == 0, s.index == |s.filtered| - 1)
  }

  /** The layout buttons: the current layout again is ignored; `toggleLayout` resets the cursor. */
  function SwitchLayout(s: App, layout: Layout): App {
    if s.layout == layout then s else s.(layout := layout, index := 0)
  }

  /** The wheel handler: ignored outside the detailed layout, while guarded, or on a narrow screen. */
  function OnWheel(s: App, deltaY: real, narrowScreen: bool): App {
    if s.layout != Detailed || s.isScrolling || narrowScreen then s
    else Navigate(s.(isScrolling := true), if deltaY > 0.0 then 1 else -1)
  }

  /** Entry j is the first whose nationality under lang is `wanted`. */
  predicate FirstHolder(data: seq<RawItem>, lang: string, wanted: Option<string>, j: int) {
    && 0 <= j < |data|
    && BlockNationality(data[j], lang) == wanted
    && forall j' :: 0 <= j' < j ==> BlockNationality(data[j'], lang) != wanted
  }

  /** `allData.find`, returning the entry's position: the first entry whose nationality under lang is `wanted`. */
  function FirstWithNationality(data: seq<RawItem>, lang: string, wanted: Option<string>): (r: Option<nat>)
    ensures r.Some? ==> FirstHolder(data, lang, wanted, r.value)
    ensures r.None? ==> forall j :: 0 <= j < |data| ==> BlockNationality(data[j], lang) != wanted
    decreases |data|
  {
    if data == [] then None
    else if BlockNationality(data[0], lang) == wanted then Some(0)
    else
      match FirstWithNationality(data[1..], lang, wanted)
      case Some(i) =>
        assert forall j :: 1 <= j <= i ==> data[j] == data[1..][j - 1];
        Some(i + 1)
      case None =>
        assert forall j :: 1 <= j < |data| ==> data[j] == data[1..][j - 1];
        None
  }

  /**
   * The selected nationality after a language change: "all" stays "all"; otherwise the
   * new-language nationality of the first entry that had the old selection, or "all"
   * when no entry had it.
   */
  function RemapNationality(data: seq<RawItem>, oldLang: string, newLang: string, selected: Option<string>): (r: Option<string>)
    ensures selected == Some(All) ==> r == Some(All)
    ensures (forall j :: 0 <= j < |data| ==> BlockNationality(data[j], oldLang) != selected) ==> r == Some(All)
    ensures r == Some(All) ||
      (exists j :: 0 <= j < |data| && BlockNationality(data[j], oldLang) == selected && r == BlockNationality(data[j], newLang))
    ensures forall j :: selected != Some(All) && FirstHolder(data, oldLang, selected, j) ==>
      r == BlockNationality(data[j], newLang)
  {
    if selected == Some(All) then selected
    else
      match FirstWithNationality(data, oldLang, selected)
      case Some(i) =>
        assert forall j :: FirstHolder(data, oldLang, selected, j) ==> j == i;
        BlockNationality(data[i], newLang)
      case None => Some(All)
  }

  /** The state part of `onLanguageChange`: rebuild the cards, remap the nationality, refilter. */
  function OnLanguageChange(s: App, newLang: string): App {
    FilterAndRender(s.(
      lang := newLang,
      allCards := MakeCards(s.allData, newLang),
      nationality := RemapNationality(s.allData, s.lang, newLang, s.nationality)))
  }

  /** One event handler of the app. */
  function Step(s: App, e: Event): App {
    match e
    case SearchInput(value) => FilterAndRender(s.(searchTerm := Lower(value)))
    case CategoryClick(category) => FilterAndRender(s.(category := category))
    case NationalityChange(value) => FilterAndRender(s.(nationality := Some(value)))
    case LayoutClick(layout) => SwitchLayout(s, layout)
    case Wheel(deltaY, narrowScreen) => OnWheel(s, deltaY, narrowScreen)
    case GuardTimeout => s.(isScrolling := false)
    case PrevClick => Navigate(s, -1)
    case NextClick => Navigate(s, 1)
    case LanguageChange(newLang) =>
      // `applyLanguage` throws before `onLanguageChange` for a code other than pt, es or en
      if newLang in Supported then OnLanguageChange(s, newLang) else s
  }

  /** The events applied one after another. */
  function Run(s: App, events: seq<Event>): App
    decreases |events|
  {
    if events == [] then s else Run(Step(s, events[0]), events[1..])
  }

  // ----- the invariant ----------------------------------------------------

  /**
   * What every reachable state satisfies:
   * - the entries are newest first;
   * - the current language is pt, es or en;
   * - the cards are built from the entries in the current language;
   * - `filtered` is exactly the filter of the cards by the current fields;
   * - the cursor lies inside `filtered`, or is 0 when it is empty;
   * - the search term is lower case.
   */
  predicate Valid(s: App) {
    && RawNewestFirst(s.allData)
    && s.lang in Supported
    && s.allCards == MakeCards(s.allData, s.lang)
    && s.filtered == Apply(s.allCards, CriteriaOf(s))
    && (s.index == 0 || s.index < |s.filtered|)
    && IsLowerCase(s.searchTerm)
  }

  /**
   * The app comes up exactly when the initial language is pt, es or en, which always
   * holds without a saved language; the loaded app is valid and shows every card.
   */
  lemma InitValid(allData: seq<RawItem>, savedLang: Option<string>, browserLanguage: string)
    requires RawNewestFirst(allData)
    ensures Init(allData, savedLang, browserLanguage).Some? <==> InitialLang(savedLang, browserLanguage) in Supported
    ensures !(savedLang.Some? && savedLang.value != "") ==> Init(allData, savedLang, browserLanguage).Some?
    ensures match Init(allData, savedLang, browserLanguage)
      case Some(s) => Valid(s) && s.filtered == s.allCards && s.index == 0
      case None => true
  {
    var lang := InitialLang(savedLang, browserLanguage);
    ApplyNoCriteria(MakeCards(allData, lang));
  }

  /** Every event handler keeps the invariant. */
  lemma StepValid(s: App, e: Event)
    requires Valid(s)
    ensures Valid(Step(s, e))
  {
  }

  /** Any sequence of events keeps the invariant. */
  lemma {:induction false} RunValid(s: App, events: seq<Event>)
    requires Valid(s)
    ensures Valid(Run(s, events))
    decreases |events|
  {
    if events != [] {
      StepValid(s, events[0]);
      RunValid(Step(s, events[0]), events[1..]);
    }
  }

  /**
   * In a valid state the cursor points into a non-empty filtered list, the filtered
   * list is newest first, and every card shown is a card of the catalog that passes
   * the current filter.
   */
  lemma ValidShowsFilteredCards(s: App)
    requires Valid(s)
    ensures |s.filtered| > 0 ==> s.index < |s.filtered|
    ensures NewestFirst(s.filtered)
    ensures forall c :: c in s.filtered <==> c in s.allCards && Matches(c, CriteriaOf(s))
  {
    MakeCardsKeepsOrder(s.allData, s.lang);
    ApplyKeepsYearOrder(s.allCards, CriteriaOf(s));
    ApplyMembership(s.allCards, CriteriaOf(s));
  }

  // ----- filters reset the cursor -----------------------------------------

  /** Every filter change and every language change puts the cursor back on the first card. */
  lemma FilterEventsResetCursor(s: App, e: Event)
    requires e.SearchInput? || e.CategoryClick? || e.NationalityChange? || e.LanguageChange?
    requires e.LanguageChange? ==> e.newLang in Supported
    ensures Step(s, e).index == 0
    ensures Step(s, e).filtered == Apply(Step(s, e).allCards, CriteriaOf(Step(s, e)))
  {
  }

  /** A language other than pt, es or en leaves the app unchanged. */
  lemma UnsupportedLanguageIgnored(s: App, newLang: string)
    requires newLang !in Supported
    ensures Step(s, LanguageChange(newLang)) == s
  {
  }

  /**
   * A change to a supported language takes effect: the language is switched, every card
   * shown is built in it, the selected nationality is remapped, and the cursor is reset.
   */
  lemma LanguageChangeTakesEffect(s: App, newLang: string)
    requires newLang in Supported
    ensures var t := Step(s, LanguageChange(newLang));
      && t.lang == newLang
      && t.allData == s.allData
      && (forall c :: c in t.filtered ==> c == MakeCard(c.rawData, newLang) && c.rawData in s.allData)
      && t.nationality == RemapNationality(s.allData, s.lang, newLang, s.nationality)
      && t.index == 0
  {
    var t := Step(s, LanguageChange(newLang));
    ApplyMembership(t.allCards, CriteriaOf(t));
  }

  /** Choosing a nationality shows exactly the catalog cards of that nationality that pass the other two tests. */
  lemma NationalityChangeSelects(s: App, v: string)
    requires Valid(s)
    ensures var t := Step(s, NationalityChange(v));
      forall c :: c in t.filtered <==>
        c in s.allCards && (v == All || c.nationality == Some(v)) && CategoryOk(c, CriteriaOf(s)) && SearchOk(c, CriteriaOf(s))
  {
    var t := Step(s, NationalityChange(v));
    ApplyMembership(t.allCards, CriteriaOf(t));
  }

  /** Choosing a category shows exactly the catalog cards of that category that pass the other two tests. */
  lemma CategoryChangeSelects(s: App, category: string)
    requires Valid(s)
    ensures var t := Step(s, CategoryClick(category));
      forall c :: c in t.filtered <==>
        c in s.allCards && (category == All || c.category == category) && NationalityOk(c, CriteriaOf(s)) && SearchOk(c, CriteriaOf(s))
  {
    var t := Step(s, CategoryClick(category));
    ApplyMembership(t.allCards, CriteriaOf(t));
  }

  /** The search term is stored lower-cased, and searching for a year shows that year's champions. */
  lemma SearchByYear(s: App, year: int)
    requires Valid(s)
    ensures var t := Step(s, SearchInput(DecimalString(year)));
      forall c :: c in s.allCards && c.year == year && CategoryOk(c, CriteriaOf(s)) && NationalityOk(c, CriteriaOf(s))
        ==> c in t.filtered
  {
    var t := Step(s, SearchInput(DecimalString(year)));
    DecimalRoundTrip(year);
    assert IsLowerCase(DecimalString(year));
    LowerKeepsLowerCase(DecimalString(year));
    ApplyMembership(t.allCards, CriteriaOf(t));
    forall c | c in s.allCards && c.year == year && CategoryOk(c, CriteriaOf(s)) && NationalityOk(c, CriteriaOf(s))
      ensures c in t.filtered
    {
      SearchFindsOwnYearAndName(c, CriteriaOf(s), 0, 0);
    }
  }

  /** Choosing a category that no card has leaves nothing to show and both cursor and list empty. */
  lemma UnknownCategoryEmptiesView(s: App, category: string)
    requires category != All
    requires forall i :: 0 <= i < |s.allCards| ==> s.allCards[i].category != category
    ensures Step(s, CategoryClick(category)).filtered == []
    ensures Step(s, CategoryClick(category)).index == 0
  {
    UnknownCategoryShowsNothing(s.allCards, CriteriaOf(s.(category := category)));
  }

  // ----- the detailed-view cursor -----------------------------------------

  /**
   * A navigation step either commits the new index, or, when the new index falls
   * outside the filtered list, changes nothing but releasing the guard.
   */
  lemma NavigateCommitsOrReleases(s: App, direction: int)
    ensures var t := Navigate(s, direction);
      && (0 <= s.index + direction < |s.filtered| ==> t.index == s.index + direction && t.isScrolling == s.isScrolling)
      && (!(0 <= s.index + direction < |s.filtered|) ==> t.index == s.index && !t.isScrolling)
      && t.filtered == s.filtered && t.layout == s.layout && CriteriaOf(t) == CriteriaOf(s)
  {
  }

  /** A committed step is undone by the opposite step. */
  lemma NavigateRoundTrip(s: App, direction: int)
    requires s.index == 0 || s.index < |s.filtered|
    requires Navigate(s, direction).index != s.index
    ensures Navigate(Navigate(s, direction), -direction) == s
  {
  }

  /** The cursor stays inside the filtered list however often the buttons are pressed. */
  lemma NavigateKeepsCursorInRange(s: App, direction: int)
    requires s.index == 0 || s.index < |s.filtered|
    ensures var t := Navigate(s, direction); t.index == 0 || t.index < |t.filtered|
  {
  }

  /**
   * A button is disabled exactly when pressing it would not move the cursor; an enabled
   * previous button moves one card back and an enabled next button one card forward.
   */
  lemma NavButtonsMatchNavigation(s: App)
    requires s.index < |s.filtered|
    ensures UpdateNavButtons(s).prevDisabled <==> Step(s, PrevClick).index == s.index
    ensures UpdateNavButtons(s).nextDisabled <==> Step(s, NextClick).index == s.index
    ensures !UpdateNavButtons(s).prevDisabled ==> Step(s, PrevClick).index == s.index - 1
    ensures !UpdateNavButtons(s).nextDisabled ==> Step(s, NextClick).index == s.index + 1
  {
  }

  /** Three cards with the cursor on the middle one: next moves to the last and disables only next. */
  lemma NextOnMiddleOfThree(s: App)
    requires |s.filtered| == 3 && s.index == 1
    ensures Step(s, NextClick).index == 2
    ensures UpdateNavButtons(Step(s, NextClick)) == NavButtons(false, true)
  {
  }

  // ----- layout -----------------------------------------------------------

  /** Clicking the current layout changes nothing; the other one switches and resets only the cursor. */
  lemma LayoutSwitch(s: App, layout: Layout)
    ensures layout == s.layout ==> Step(s, LayoutClick(layout)) == s
    ensures layout != s.layout ==> Step(s, LayoutClick(layout)) == s.(layout := layout, index := 0)
  {
  }

  // ----- the wheel guard --------------------------------------------------

  /** The wheel does nothing outside the detailed layout, while guarded, or on a narrow screen. */
  lemma WheelIgnored(s: App, deltaY: real, narrowScreen: bool)
    requires s.layout != Detailed || s.isScrolling || narrowScreen
    ensures Step(s, Wheel(deltaY, narrowScreen)) == s
  {
  }

  /**
   * An accepted wheel event moves the cursor one card down for deltaY > 0 and up
   * otherwise, and the guard stays held exactly when the cursor moved: a boundary
   * no-op never leaves navigation locked.
   */
  lemma WheelMovesAndGuards(s: App, deltaY: real)
    requires s.layout == Detailed && !s.isScrolling
    ensures var t := Step(s, Wheel(deltaY, false));
      && (t.isScrolling <==> t.index != s.index)
      && (t.index == s.index || t.index == s.index + (if deltaY > 0.0 then 1 else -1))
      && (t.index == s.index <==> !(0 <= s.index + (if deltaY > 0.0 then 1 else -1) < |s.filtered|))
  {
  }

  /** While the guard is held a second wheel event changes nothing. */
  lemma SecondWheelIgnored(s: App, first: real, second: real, narrowScreen: bool)
    requires Step(s, Wheel(first, false)).isScrolling
    ensures var t := Step(s, Wheel(first, false)); Step(t, Wheel(second, narrowScreen)) == t
  {
  }

  /**
   * The timeout releases the guard and changes nothing else, so in the detailed layout
   * the next wheel event on a wide screen moves the cursor again when the step is in range.
   */
  lemma GuardTimeoutReleases(s: App, deltaY: real)
    ensures !Step(s, GuardTimeout).isScrolling
    ensures Step(s, GuardTimeout).(isScrolling := s.isScrolling) == s
    ensures var d := if deltaY > 0.0 then 1 else -1;
      s.layout == Detailed && 0 <= s.index + d < |s.filtered| ==>
        Step(Step(s, GuardTimeout), Wheel(deltaY, false)).index == s.index + d
  {
  }

  /**
   * A burst of wheel events with no guard timeout in between moves the cursor by
   * at most one card.
   */
  lemma {:induction false} WheelBurstMovesAtMostOnce(s: App, events: seq<Event>)
    requires forall i :: 0 <= i < |events| ==> events[i].Wheel?
    ensures s.isScrolling ==> Run(s, events) == s
    ensures var t := Run(s, events);
      t.index == s.index || t.index == s.index + 1 || t.index + 1 == s.index
    decreases |events|
  {
    if events != [] {
      var t := Step(s, events[0]);
      assert forall i :: 0 <= i < |events[1..]| ==> events[1..][i].Wheel?;
      WheelBurstMovesAtMostOnce(t, events[1..]);
    }
  }

  // ----- language change --------------------------------------------------

  /**
   * Nationalities translate consistently between two languages: two entries share a
   * nationality in one language exactly when they share it in the other, and no
   * entry's nationality in the new language is the literal "all".
   */
  predicate ConsistentTranslation(data: seq<RawItem>, oldLang: string, newLang: string) {
    && (forall i, j :: 0 <= i < |data| && 0 <= j < |data| ==>
         (BlockNationality(data[i], oldLang) == BlockNationality(data[j], oldLang) <==>
          BlockNationality(data[i], newLang) == BlockNationality(data[j], newLang)))
    && (forall i :: 0 <= i < |data| ==> BlockNationality(data[i], newLang) != Some(All))
  }

  /** A card built in either of two supported languages passes filters that differ only in a translated nationality alike. */
  lemma CardMatchesAcrossLanguages(d: RawItem, oldLang: string, newLang: string, k: Criteria, k': Criteria)
    requires oldLang in Supported && newLang in Supported
    requires k'.category == k.category && k'.term == k.term
    requires k.nationality == Some(All) <==> k'.nationality == Some(All)
    requires k.nationality != Some(All) ==>
      (BlockNationality(d, oldLang) == k.nationality <==> BlockNationality(d, newLang) == k'.nationality)
    ensures Matches(MakeCard(d, oldLang), k) <==> Matches(MakeCard(d, newLang), k')
  {
    CardLanguageMatchesBlock(d, oldLang);
    CardLanguageMatchesBlock(d, newLang);
  }

  /** Under a consistent translation each card passes the old filter exactly when its rebuilt card passes the new one. */
  lemma MatchesAcrossLanguageChange(s: App, newLang: string)
    requires Valid(s)
    requires newLang in Supported
    requires ConsistentTranslation(s.allData, s.lang, newLang)
    requires s.nationality == Some(All) ||
      exists i :: 0 <= i < |s.allData| && BlockNationality(s.allData[i], s.lang) == s.nationality
    ensures var t := OnLanguageChange(s, newLang);
      && |t.allCards| == |s.allCards|
      && forall i :: 0 <= i < |s.allCards| ==>
        (Matches(s.allCards[i], CriteriaOf(s)) <==> Matches(t.allCards[i], CriteriaOf(t)))
  {
    var t := OnLanguageChange(s, newLang);
    var k, k' := CriteriaOf(s), CriteriaOf(t);
    var data := s.allData;
    if s.nationality != Some(All) {
      var first := FirstWithNationality(data, s.lang, s.nationality);
      assert first.Some?;
      var g := first.value;
      assert k'.nationality == BlockNationality(data[g], newLang);
    }
    forall i | 0 <= i < |data|
      ensures Matches(s.allCards[i], k) <==> Matches(t.allCards[i], k')
    {
      CardMatchesAcrossLanguages(data[i], s.lang, newLang, k, k');
    }
  }

  /**
   * Switching between two supported languages whose nationalities translate consistently,
   * with a selected nationality some entry has, switches the language, remaps the selection,
   * rebuilds every card shown in the new language, and shows the same entries in the same order.
   */
  lemma LanguageChangeKeepsSelection(s: App, newLang: string)
    requires Valid(s)
    requires newLang in Supported
    requires ConsistentTranslation(s.allData, s.lang, newLang)
    requires s.nationality == Some(All) ||
      exists i :: 0 <= i < |s.allData| && BlockNationality(s.allData[i], s.lang) == s.nationality
    ensures var t := OnLanguageChange(s, newLang);
      && t.lang == newLang
      && t.nationality == RemapNationality(s.allData, s.lang, newLang, s.nationality)
      && (forall c :: c in t.filtered ==> c == MakeCard(c.rawData, newLang))
      && t.index == 0
      && |t.filtered| == |s.filtered|
      && forall j :: 0 <= j < |s.filtered| ==> t.filtered[j].rawData == s.filtered[j].rawData
  {
    var t := OnLanguageChange(s, newLang);
    var k, k' := CriteriaOf(s), CriteriaOf(t);
    MatchesAcrossLanguageChange(s, newLang);
    ApplyAtSamePositions(s.allCards, k, t.allCards, k');
    LanguageChangeTakesEffect(s, newLang);
  }
}

=== FILE: wrappers.dfy ===
/** The optional value used wherever the source may hold `undefined` or `null`. */
module Wrappers {

  datatype Option<+T> = None | Some(value: T)
}
